=== FILE: README.md ===
# BinReminderApp core, modelled in Dafny

BinReminderApp is a small Flask service that reminds households when to put
out their bins. This project models the parts of it that hold real logic:

- the browser-side helpers of `static/js/main.js`:
  - `validatePhoneNumber` deletes the separators `-`, white space, `(` and `)`, then matches the rest against `^\+?1?\d{10,12}$`;
  - `calculateNextCollection` moves a `YYYY-MM-DD` date forward by 7 days for `weekly`, by 14 days for `biweekly`, and by nothing otherwise, then writes it back as a string;
- the two state transitions of `app.py`:
  - `update_schedule` is an upsert of the bin schedule keyed on (user, bin type), fed by `datetime.strptime(..., '%Y-%m-%d')`;
  - `register` inserts a user only when the email address is not yet taken.

Modules, one per concept:

| file | module | models |
|---|---|---|
| `wrappers.dfy` | `Wrappers` | `Option` and `Result` for misses and raised errors |
| `text.dfy` | `Text` | ASCII digits, zero-padded numerals and reading them back |
| `phone.dfy` | `PhoneValidation` | `validatePhoneNumber` |
| `civil_date.dfy` | `CivilDate` | proleptic Gregorian dates and day numbers since 1970-01-01 (the arithmetic behind `setDate`) |
| `iso_date.dfy` | `IsoDate` | the date-only forms of the ECMAScript date string format: `new Date(string)` and `toISOString().split('T')[0]` |
| `next_collection.dfy` | `NextCollection` | `calculateNextCollection` |
| `form_date.dfy` | `FormDate` | `datetime.strptime(value, '%Y-%m-%d')` |
| `schedules.dfy` | `ScheduleStore` | the schedule table and `update_schedule` |
| `users.dfy` | `UserDirectory` | the user table and `register` |

Design choices:

- State is immutable. The schedule table is a `map` from (user id, bin type) to the row, so at most one row per key holds by construction; `WellKeyed` says that each row is filed under its own user and bin type.
- The user table is the sequence of rows in insertion order. `WellFormed` says emails and ids are unique. `app.py` sets no id; the database assigns it at commit, so `Register` takes the new id as a parameter.
- A handler that raises (a missing form field or a malformed date) returns `Failure`. A duplicate email raises nothing: `register` flashes "Email already registered" and redirects. The model reports that handled refusal as `Failure(EmailAlreadyRegistered)`. On every failure nothing is committed, so the state is unchanged.
- A JavaScript `Date` whose time value is NaN is `Failure(InvalidTimeValue)`, because `toISOString` throws a RangeError for it.

Behaviour of the code worth knowing:

- Bin type and frequency are free strings. Nothing validates them on submission.
- Any frequency other than exactly `weekly` or `biweekly` leaves the preview date unchanged.
- The output of `calculateNextCollection` is not always `YYYY-MM-DD`. From 9999-12-25 onwards a weekly step reaches year 10000, and `toISOString` writes that year as `+010000` (`NextCollection.PreviewShape`).

## Model

| member | source | states |
|---|---|---|
| PhoneValidation.Clean | static/js/main.js:4 | the cleaned string contains no separator, is no longer than the input, and equals the input when the input has no separator |
| PhoneValidation.CleanAppend | static/js/main.js:4 | deleting separators commutes with concatenation: each character is kept or dropped on its own |
| PhoneValidation.SeparatorInsertionInvariant | static/js/main.js:4 | inserting a `-`, white-space character, `(` or `)` anywhere changes neither the cleaned string nor the verdict |
| PhoneValidation.SeparatorsAreNotPatternCharacters | static/js/main.js:4 | the class `[-\s()]` holds `-`, `(`, `)` and every ECMAScript white-space and line-terminator character, and none of them is a digit or `+`, so cleaning never deletes a character the pattern needs |
| PhoneValidation.Recognise | static/js/main.js:3 | an accepted string has 10 to 14 characters, and every character is a digit except a `+` in first position |
| PhoneValidation.RecogniseCorrect | static/js/main.js:3 | the recogniser accepts a string iff it is an optional `+`, an optional `1`, then 10 to 12 ASCII digits and nothing else (the language of the regular expression) |
| PhoneValidation.ValidatePhoneNumber | static/js/main.js:2-5 | the verdict is true iff the cleaned input is in the language of `^\+?1?\d{10,12}$` |
| PhoneValidation.AcceptedLength | static/js/main.js:3-4 | every accepted number cleans to 10 to 14 characters |
| PhoneValidation.RejectsStrayCharacter | static/js/main.js:3 | a cleaned character that is not a digit rejects the number, unless it is a `+` in first position |
| CivilDate.ToDays | static/js/main.js:9-15 | day numbers count from 1970-01-01 (January 1970 is day 0 to 30), and a valid date's number lies between its year's first day and the next year's first day |
| CivilDate.YearsApart | static/js/main.js:11 | between two January 1sts lie 365 to 366 days per year |
| CivilDate.ToDaysMonotone | static/js/main.js:9-15 | day numbers follow calendar order: an earlier valid date has a smaller day number |
| CivilDate.ToDaysInjective | static/js/main.js:9-15 | two valid dates with the same day number are the same date |
| CivilDate.Walk | static/js/main.js:11 | stepping n days forward month by month ends on a valid date whose day number is n more |
| CivilDate.FromDays | static/js/main.js:15 | every day number is the day number of a valid date (decomposing a time value into year, month, day) |
| CivilDate.FromDaysToDays | static/js/main.js:9-15 | decomposing the day number of a valid date gives that date back |
| CivilDate.AddDays | static/js/main.js:10-13 | `setDate(getDate() + n)` yields a valid date exactly n days after the input |
| CivilDate.AddDaysCompose | static/js/main.js:10-13 | moving a days then b days equals moving a + b days |
| CivilDate.AddDaysZero | static/js/main.js:14-15 | moving zero days leaves the date unchanged |
| CivilDate.AddDaysRollover | static/js/main.js:10-13 | moving up to 28 days stays in the month while it lasts, then rolls into the next month, and from December into January of the next year |
| IsoDate.ParseIsoDate | static/js/main.js:9 | `new Date(s)` gives a valid calendar date within the Date range, or an invalid Date |
| IsoDate.FormatIsoDate | static/js/main.js:15 | the written date is 10 characters for years 0000 to 9999 and 13 otherwise, and ends in `-MM-DD`, whose fields read back as the month and the day |
| IsoDate.TimeRangeYears | static/js/main.js:15 | every representable date has a year of at most six digits, so `toISOString` can write it |
| IsoDate.FormatShape | static/js/main.js:15 | the written date has the `YYYY-MM-DD` shape iff its year is 0000 to 9999 |
| IsoDate.ParseFormat | static/js/main.js:9-15 | parsing a written date gives the date back |
| IsoDate.FormatParse | static/js/main.js:9-15 | a `YYYY-MM-DD` string that parses is exactly how its date is written |
| NextCollection.OffsetDays | static/js/main.js:10-14 | the offset is 7 exactly for the string `weekly`, 14 exactly for `biweekly`, and 0 for every other string |
| NextCollection.CalculateNextCollection | static/js/main.js:8-16 | succeeds iff the input parses and the moved date stays in range; the output parses to the input date moved by 7, 14 or 0 days according to the frequency |
| NextCollection.WeeklyIsSevenDaysLater | static/js/main.js:10-11 | `weekly` gives the civil date exactly 7 days later, rolling over month and year ends field by field |
| NextCollection.BiweeklyIsTwoWeeks | static/js/main.js:12-13 | `biweekly` gives exactly 14 days later, and equals applying `weekly` to the result of `weekly` |
| NextCollection.EmptyDateHasNoPreview | static/js/main.js:9-15 | a cleared date field (the empty string) is an invalid Date, so `toISOString` throws whatever the frequency |
| NextCollection.OtherFrequencyKeepsDate | static/js/main.js:14-15 | any other frequency returns the input date; a `YYYY-MM-DD` input comes back as the same string |
| NextCollection.PreviewShape | static/js/main.js:15 | the preview is a `YYYY-MM-DD` string iff the next collection falls in a four-digit year |
| FormDate.ParseFormDate | app.py:81 | `strptime` accepts only strings of 8 to 10 characters starting with the four-digit year and a hyphen, and yields a valid date of year 1 to 9999 whose year is those digits |
| FormDate.ParseFormDateSpelling | app.py:81 | `strptime` accepts a string iff it is the four-digit year, a hyphen, the month (two digits, or one for months 1 to 9), a hyphen and the day (two digits, or for days 1 to 9 one digit or a space and a digit) of a real date of years 1 to 9999; it yields exactly that date |
| FormDate.AcceptedIsSpelled | app.py:81 | every accepted string spells the date it yields |
| FormDate.SpelledIsAccepted | app.py:81 | every spelling of a date of years 1 to 9999 is accepted as that date |
| FormDate.ParsesIsoForm | app.py:81 | every `YYYY-MM-DD` string of years 1 to 9999 parses to its date |
| FormDate.AgreesWithIso | app.py:81 | on `YYYY-MM-DD` strings the server's parse and the browser's parse agree |
| FormDate.AcceptsUnpadded | app.py:81 | single-digit months and days are accepted without a leading zero |
| FormDate.RejectsLongYear | app.py:81 | a string that starts with five digits is refused by `strptime` with "does not match format" and is an invalid Date to `new Date` |
| FormDate.RejectsEmptyField | app.py:81 | the empty string is refused by both parsers |
| FormDate.RejectsMissingLeapDay | app.py:81 | February 29th of a common year is refused with "day is out of range for month" |
| ScheduleStore.Upsert | app.py:83-98 | afterwards exactly one row exists for the key, carrying the new frequency and date; an existing row keeps its user and bin type and no row is added; otherwise one row is added; every other row is unchanged |
| ScheduleStore.UpdateSchedule | app.py:78-100 | succeeds iff the date field is present and parses and bin type and frequency are present; a missing or malformed date is reported before any change; success is the upsert of the parsed date |
| ScheduleStore.UpsertWellKeyed | app.py:83-98 | the upsert keeps every row filed under its own user and bin type, and the row for the key is exactly the submitted one |
| ScheduleStore.UpsertIdempotent | app.py:83-100 | submitting the same form twice has the effect of submitting it once |
| ScheduleStore.UpsertLastWins | app.py:88-90 | for the same key the later submission overwrites the earlier one entirely |
| ScheduleStore.UpsertCommutes | app.py:83-86 | submissions for different (user, bin type) keys do not interfere |
| UserDirectory.FindByEmail | app.py:64 | a row is found iff some row has exactly that email, and the row found has it |
| UserDirectory.Register | app.py:59-73 | refused with "Email already registered" iff the email is taken; succeeds iff all fields are present and the email is new, appending exactly one user (the database's id, not admin) and leaving the existing rows as they were |
| UserDirectory.RegisterPreservesWellFormed | models.py:7-8 | registration keeps emails unique, and keeps ids unique when the database's id is one no row has |
| UserDirectory.FindByEmailUnique | app.py:64 | with unique emails, the lookup finds the one row holding the email |
| UserDirectory.RegisterThenFind | app.py:64-71 | after registering, the email finds the new account, and registering it again is refused, whatever the table held before |
| UserDirectory.FindAfterAppend | app.py:64 | a row appended to a table without its email is the row the email lookup finds |

## Left out

- The page wiring of `static/js/main.js` (lines 18-78) is left out. It connects form fields to the two helpers and renders nothing that can be checked.
- Time zones are left out. `new Date("YYYY-MM-DD")` is midnight UTC, but `getDate`/`setDate` work in the browser's local zone. `setDate` keeps the local time of day, so the UTC result shifts by the zone offset before the move minus the offset after it. When the clocks go forward between the two dates, the result is 23:00 UTC of the day before, so the preview lands one day early. It never lands late, because a one-hour change cannot push midnight UTC past the next midnight. The model is pure civil-date arithmetic.
- `new Date(string)` is modelled only for the date-only forms (`YYYY`, `YYYY-MM`, `YYYY-MM-DD`, and the `±YYYYYY` expanded years). Any other string, including a standard date-time string such as `2024-06-15T00:00` that JavaScript accepts, and anything an engine's fallback parser would accept, is treated as an invalid Date. The same holds for an out-of-range day such as `2023-02-30`, which some engines roll over into March instead. An `<input type="date">` submits either the empty string or a valid date string. Its year has four or more digits, so a browser may send `10000-01-01` or a later year, up to 275760 in some browsers. Such a string reaches both `calculateNextCollection` and `update_schedule`. `IsoDate.ParseIsoDate` treats it as an invalid Date, while an engine's fallback parser may read it. `FormDate.ParseFormDate` refuses it with `DoesNotMatchFormat`, as `strptime` does (`FormDate.RejectsLongYear`).
- Strings are sequences of code points, while JavaScript strings are UTF-16 code units. A character outside the Basic Multilingual Plane is neither a digit nor a separator, so it rejects the number either way.
- FormDate.ParseFormDate: the model accepts ASCII digits only. Python's `\d` in `strptime` also matches other Unicode decimal digits, which `int()` then converts.
- The `String(20)` and `String(120)` column lengths are not enforced. Whether an over-long value is refused depends on the database behind `DATABASE_URL`.
- Password hashing, login, sessions, `flash` messages and redirects are library calls. `register` is modelled as a change to the table; the password only has to be present.
- Concurrency is left out. The model does not cover two registrations racing past the duplicate check, where the database's unique constraint would refuse the second. Nor does it cover two first submissions for the same (user, bin type) racing past the lookup at `app.py` lines 83-86: `models.py` declares no unique constraint on that pair, so both would insert a row. In the model at most one row per key holds only because the state is a map.
- `admin_routes.py` is left out. Two of its handlers change the user table. `create_user` (lines 36-54) repeats the duplicate-email check of `register`, but it also sets `is_admin` from the form, so an admin can create admin accounts; `register` never does. `toggle_admin` (lines 56-63) flips `is_admin` on an existing user and commits. The rest is count queries and page rendering.
- `sms_notifications.py` is left out: it is a call into the Twilio client that reports success or failure.
- The reminder sweep, the notification scheduler and SMS credits are not part of this model. `main.py` starts and stops a `scheduler` that is imported from `app.py`, but `app.py` does not define it.
- The model assumes the schema that `db.create_all()` (`app.py` line 28) builds from `models.py`. The migrations are left out, and they add more than schema declarations:
  - `8a2d4f5e1234` adds `sms_credits`, `referral_code` (unique) and `referred_by_id` to `user`.
  - The same migration declares a data update (lines 36-42) that gives every existing user 6 SMS credits and a random referral code. As written, line 40 (`sa.func.random()::text`) is not valid Python, so the file cannot be imported and the migration cannot run.
  - It then makes `sms_credits` and `referral_code` NOT NULL (lines 44-51). `models.py` declares neither column, so under the migrated schema the insert of `register` would be refused at commit. `UserDirectory.Register`'s success case holds only for the `models.py` schema.
  - `add_created_at_field_to_user.py` adds a `created_at` column that the database fills in itself.
- `database.py` only declares the database handle and adds no behaviour.

=== FILE: civil_date.dfy ===
/** Proleptic Gregorian civil dates and their day numbers (days since
    1970-01-01). This is the calendar arithmetic a JavaScript Date performs
    when a day of the month is moved past the end of the month: the fields are
    turned into a day number (MakeDay), the day number is shifted, and it is
    decomposed into year, month and day again (YearFromTime, MonthFromTime,
    DateFromTime in section 21.4.1 of ECMA-262). Time of day and time zones
    play no part here. */
module CivilDate {

  datatype Date = Date(year: int, month: int, day: int)

  predicate IsLeapYear(y: int) {
    y % 4 == 0 && (y % 100 != 0 || y % 400 == 0)
  }

  function DaysInYear(y: int): (r: int) {
    if IsLeapYear(y) then 366 else 365
  }

  function DaysInMonth(y: int, m: int): (r: int)
    requires 1 <= m <= 12
  {
    if m == 2 then (if IsLeapYear(y) then 29 else 28)
    else if m == 4 || m == 6 || m == 9 || m == 11 then 30
    else 31
  }

  /** A real calendar day: month 1 to 12, day within that month's length. */
  predicate Valid(d: Date) {
    1 <= d.month <= 12 && 1 <= d.day <= DaysInMonth(d.year, d.month)
  }

  /** Days from 0000-01-01 to January 1st of year y: 365 per year plus one per
      leap year in between (negative for years before 0). */
  function DaysBeforeYear(y: int): (r: int) {
    365 * y + (y + 3) / 4 - (y + 99) / 100 + (y + 399) / 400
  }

  /** Days from January 1st to the first day of month m of year y. */
  function DaysBeforeMonth(y: int, m: int): (r: int)
    requires 1 <= m <= 12
  {
    var common :=
      if m == 1 then 0 else if m == 2 then 31 else if m == 3 then 59
      else if m == 4 then 90 else if m == 5 then 120 else if m == 6 then 151
      else if m == 7 then 181 else if m == 8 then 212 else if m == 9 then 243
      else if m == 10 then 273 else if m == 11 then 304 else 334;
    common + (if m > 2 && IsLeapYear(y) then 1 else 0)
  }

  /** MakeDay(y, m, dt): the day number of day dt of month m of year y, where
      dt may run past the end of the month. */
  function MakeDay(y: int, m: int, dt: int): (r: int)
    requires 1 <= m <= 12
  {
    DaysBeforeYear(y) - DaysBeforeYear(1970) + DaysBeforeMonth(y, m) + dt - 1
  }

  /** The day number of a date: days since 1970-01-01. */
  function ToDays(d: Date): (r: int)
    requires 1 <= d.month <= 12
    ensures d.year == 1970 && d.month == 1 ==> r == d.day - 1
    ensures Valid(d) ==>
      DaysBeforeYear(d.year) - DaysBeforeYear(1970) <= r < DaysBeforeYear(d.year + 1) - DaysBeforeYear(1970)
  {
    YearLength(d.year);
    if Valid(d) then
      DayOfYearBound(d);
      MakeDay(d.year, d.month, d.day)
    else
      MakeDay(d.year, d.month, d.day)
  }

  /** Days from 1 January to d, which is less than the length of the year. */
  lemma DayOfYearBound(d: Date)
    requires Valid(d)
    ensures 0 <= DaysBeforeMonth(d.year, d.month) + d.day - 1 < DaysInYear(d.year)
  {
    if d.month < 12 {
      MonthsOrdered(d.year, d.month, 12);
    }
    MonthsTileYear(d.year, 12);
  }

  /** A year is as long as the leap-year rule says. */
  lemma YearLength(y: int)
    ensures DaysBeforeYear(y + 1) == DaysBeforeYear(y) + DaysInYear(y)
  {
    assert (y + 4) / 4 - (y + 3) / 4 == if y % 4 == 0 then 1 else 0;
    assert (y + 100) / 100 - (y + 99) / 100 == if y % 100 == 0 then 1 else 0;
    assert (y + 400) / 400 - (y + 399) / 400 == if y % 400 == 0 then 1 else 0;
  }

  /** Between two January 1sts lie 365 to 366 days per year. */
  lemma {:induction false} YearsApart(y1: int, y2: int)
    requires y1 <= y2
    ensures 365 * (y2 - y1) <= DaysBeforeYear(y2) - DaysBeforeYear(y1) <= 366 * (y2 - y1)
    decreases y2 - y1
  {
    if y1 < y2 {
      YearsApart(y1, y2 - 1);
      YearLength(y2 - 1);
    }
  }

  /** Months tile the year: each month starts where the previous one ends, and
      December ends where the year does. */
  lemma MonthsTileYear(y: int, m: int)
    requires 1 <= m <= 12
    ensures m < 12 ==> DaysBeforeMonth(y, m + 1) == DaysBeforeMonth(y, m) + DaysInMonth(y, m)
    ensures m == 12 ==> DaysBeforeMonth(y, m) + DaysInMonth(y, m) == DaysInYear(y)
  {
  }

  /** Later months of the same year start no earlier than this month ends. */
  lemma MonthsOrdered(y: int, m1: int, m2: int)
    requires 1 <= m1 < m2 <= 12
    ensures DaysBeforeMonth(y, m1) + DaysInMonth(y, m1) <= DaysBeforeMonth(y, m2)
  {
  }

  /** The first day of the month after d is as many days after d as remain in
      d's month, counting d itself. */
  lemma NextMonthStart(d: Date)
    requires Valid(d)
    ensures ToDays(NextMonth(d)) == ToDays(d) + DaysInMonth(d.year, d.month) - d.day + 1
  {
    MonthsTileYear(d.year, d.month);
    if d.month == 12 {
      YearLength(d.year);
    }
  }

  /** The first day of the month after the month of d. */
  function NextMonth(d: Date): (r: Date)
    requires 1 <= d.month <= 12
    ensures Valid(r) && r.day == 1
  {
    if d.month == 12 then Date(d.year + 1, 1, 1) else Date(d.year, d.month + 1, 1)
  }

  /** Lexicographic order on (year, month, day). */
  predicate Before(a: Date, b: Date) {
    || a.year < b.year
    || (a.year == b.year && a.month < b.month)
    || (a.year == b.year && a.month == b.month && a.day < b.day)
  }

  /** Day numbers follow the calendar order. */
  lemma ToDaysMonotone(a: Date, b: Date)
    requires Valid(a) && Valid(b) && Before(a, b)
    ensures ToDays(a) < ToDays(b)
  {
    if a.year < b.year {
      if a.month < 12 {
        MonthsOrdered(a.year, a.month, 12);
      }
      MonthsTileYear(a.year, 12);
      YearLength(a.year);
      YearsApart(a.year + 1, b.year);
    } else if a.month < b.month {
      MonthsOrdered(a.year, a.month, b.month);
    }
  }

  /** Distinct valid dates have distinct day numbers. */
  lemma ToDaysInjective(a: Date, b: Date)
    requires Valid(a) && Valid(b) && ToDays(a) == ToDays(b)
    ensures a == b
  {
    if Before(a, b) {
      ToDaysMonotone(a, b);
    } else if Before(b, a) {
      ToDaysMonotone(b, a);
    }
  }

  /** Steps n days forward from d a month at a time. */
  function Walk(d: Date, n: nat): (r: Date)
    requires Valid(d)
    ensures Valid(r)
    ensures ToDays(r) == ToDays(d) + n
    decreases n
  {
    var left := DaysInMonth(d.year, d.month) - d.day;
    if n <= left then Date(d.year, d.month, d.day + n)
    else
      NextMonthStart(d);
      Walk(NextMonth(d), n - left - 1)
  }

  /** A January 1st no later than day number n. */
  function StartYear(n: int): (y: int)
    ensures ToDays(Date(y, 1, 1)) <= n
  {
    var y := if n >= 0 then 1970 else 1970 - (-n) / 365 - 1;
    YearsApart(y, 1970);
    y
  }

  /** The date with day number n (YearFromTime, MonthFromTime and DateFromTime
      together). */
  function FromDays(n: int): (r: Date)
    ensures Valid(r)
    ensures ToDays(r) == n
  {
    var base := Date(StartYear(n), 1, 1);
    Walk(base, n - ToDays(base))
  }

  /** Day numbers and dates are in one-to-one correspondence. */
  lemma FromDaysToDays(d: Date)
    requires Valid(d)
    ensures FromDays(ToDays(d)) == d
  {
    ToDaysInjective(FromDays(ToDays(d)), d);
  }

  /** The date n days after d (before it when n is negative). */
  function AddDays(d: Date, n: int): (r: Date)
    requires Valid(d)
    ensures Valid(r)
    ensures ToDays(r) == ToDays(d) + n
  {
    FromDays(ToDays(d) + n)
  }

  /** Moving a days and then b days is moving a + b days. */
  lemma AddDaysCompose(d: Date, a: int, b: int)
    requires Valid(d)
    ensures AddDays(AddDays(d, a), b) == AddDays(d, a + b)
  {
    ToDaysInjective(AddDays(AddDays(d, a), b), AddDays(d, a + b));
  }

  /** Moving zero days stays on d. */
  lemma AddDaysZero(d: Date)
    requires Valid(d)
    ensures AddDays(d, 0) == d
  {
    FromDaysToDays(d);
  }

  /** Moving forward by at most four weeks, spelled out field by field: stay in
      the month while it lasts, otherwise continue into the next month, and
      from December into January of the next year. */
  lemma AddDaysRollover(d: Date, k: int)
    requires Valid(d) && 0 <= k <= 28
    ensures var dim := DaysInMonth(d.year, d.month);
      AddDays(d, k) ==
        if d.day + k <= dim then Date(d.year, d.month, d.day + k)
        else if d.month < 12 then Date(d.year, d.month + 1, d.day + k - dim)
        else Date(d.year + 1, 1, d.day + k - dim)
  {
    var dim := DaysInMonth(d.year, d.month);
    var expected :=
      if d.day + k <= dim then Date(d.year, d.month, d.day + k)
      else if d.month < 12 then Date(d.year, d.month + 1, d.day + k - dim)
      else Date(d.year + 1, 1, d.day + k - dim);
    if d.day + k > dim {
      NextMonthStart(d);
      assert expected == NextMonth(d).(day := d.day + k - dim);
      assert ToDays(expected) == ToDays(NextMonth(d)) + (d.day + k - dim - 1);
    }
    assert Valid(expected) && ToDays(expected) == ToDays(d) + k;
    ToDaysInjective(AddDays(d, k), expected);
  }
}

=== FILE: form_date.dfy ===
/** `datetime.strptime(value, '%Y-%m-%d')`, the parse of the submitted
    next-collection date in app.py (update_schedule). The format compiles to
    the regular expression
      `(?P<Y>\d\d\d\d)-(?P<m>1[0-2]|0[1-9]|[1-9])-(?P<d>3[01]|[12]\d|0[1-9]|[1-9]| [1-9])`,
    which is matched at the start of the string; text left over after the
    match is an error, and the fields must then form a real date of year 1 or
    later. */
module FormDate {

  import opened Wrappers
  import opened Text
  import opened CivilDate
  import IsoDate

  /** The ValueError strptime raises, by cause. */
  datatype FormDateError =
    | DoesNotMatchFormat      // the regular expression does not match
    | UnconvertedDataRemains  // it matches a proper prefix only
    | YearOutOfRange          // year 0000: datetime starts at year 1
    | DayOutOfRange           // e.g. 2023-02-29

  function DigitAt(s: string, i: nat): (r: int)
    requires i < |s| && IsDigit(s[i])
  {
    s[i] as int - '0' as int
  }

  /** The month group at the start of s: the first alternative of
      `1[0-2]|0[1-9]|[1-9]` that matches, as (value, length). */
  function MonthToken(s: string): (r: Option<(int, nat)>)
    ensures r.Some? ==> 1 <= r.value.0 <= 12 && 1 <= r.value.1 <= 2 && r.value.1 <= |s|
  {
    if |s| >= 2 && s[0] == '1' && '0' <= s[1] <= '2' then Some((10 + DigitAt(s, 1), 2))
    else if |s| >= 2 && s[0] == '0' && '1' <= s[1] <= '9' then Some((DigitAt(s, 1), 2))
    else if |s| >= 1 && '1' <= s[0] <= '9' then Some((DigitAt(s, 0), 1))
    else None
  }

  /** The day group at the start of s: the first alternative of
      `3[01]|[12]\d|0[1-9]|[1-9]| [1-9]` that matches, as (value, length). */
  function DayToken(s: string): (r: Option<(int, nat)>)
    ensures r.Some? ==> 1 <= r.value.0 <= 31 && 1 <= r.value.1 <= 2 && r.value.1 <= |s|
  {
    if |s| >= 2 && s[0] == '3' && '0' <= s[1] <= '1' then Some((30 + DigitAt(s, 1), 2))
    else if |s| >= 2 && '1' <= s[0] <= '2' && IsDigit(s[1]) then Some((10 * DigitAt(s, 0) + DigitAt(s, 1), 2))
    else if |s| >= 2 && s[0] == '0' && '1' <= s[1] <= '9' then Some((DigitAt(s, 1), 2))
    else if |s| >= 1 && '1' <= s[0] <= '9' then Some((DigitAt(s, 0), 1))
    else if |s| >= 2 && s[0] == ' ' && '1' <= s[1] <= '9' then Some((DigitAt(s, 1), 2))
    else None
  }

  /** The parsed date, or the ValueError strptime raises. Whatever is accepted
      is eight to ten characters long and starts with the four-digit year and
      a hyphen. */
  function ParseFormDate(s: string): (r: Result<Date, FormDateError>)
    ensures r.Success? ==> Valid(r.value) && 1 <= r.value.year <= 9999
    ensures r.Success? ==> 8 <= |s| <= 10 && AllDigits(s[..4]) && s[4] == '-'
    ensures r.Success? ==> DigitsValue(s[..4]) == r.value.year
  {
    if !(|s| >= 5 && AllDigits(s[..4]) && s[4] == '-') then Failure(DoesNotMatchFormat)
    else
      var year := DigitsValue(s[..4]);
      match MonthToken(s[5..])
      case None => Failure(DoesNotMatchFormat)
      case Some((month, ml)) =>
        var j := 5 + ml;
        if !(j < |s| && s[j] == '-') then Failure(DoesNotMatchFormat)
        else
          match DayToken(s[j + 1..])
          case None => Failure(DoesNotMatchFormat)
          case Some((day, dl)) =>
            if j + 1 + dl < |s| then Failure(UnconvertedDataRemains)
            else if year == 0 then Failure(YearOutOfRange)
            else if day > DaysInMonth(year, month) then Failure(DayOutOfRange)
            else Success(Date(year, month, day))
  }

  /** How a day may be spelled: zero-padded (`05`), bare (`5`) or
      space-padded (` 5`); the last two only for days 1 to 9. */
  datatype DayStyle = ZeroPadded | Bare | SpacePadded

  /** A month as the month group reads it: two digits, or one digit for
      months 1 to 9 when `padded` is false. */
  function MonthText(m: nat, padded: bool): (t: string)
    requires m < 100
    ensures 1 <= |t| <= 2 && AllDigits(t)
  {
    if padded || m > 9 then Pad(m, 2) else Pad(m, 1)
  }

  /** A day as the day group reads it, in the given style; days 10 and later
      always take two digits. */
  function DayText(d: nat, style: DayStyle): (t: string)
    requires d < 100
    ensures 1 <= |t| <= 2
  {
    if d > 9 then Pad(d, 2)
    else match style
      case ZeroPadded => Pad(d, 2)
      case Bare => Pad(d, 1)
      case SpacePadded => " " + Pad(d, 1)
  }

  /** s spells d in one of the ways `%Y-%m-%d` allows: the four-digit year, a
      hyphen, a month spelling, a hyphen and a day spelling, of a real date of
      year 1 to 9999. */
  ghost predicate SpellsDate(s: string, d: Date) {
    && Valid(d) && 1 <= d.year <= 9999
    && exists padded: bool, style: DayStyle ::
         s == Pad(d.year, 4) + "-" + MonthText(d.month, padded) + "-" + DayText(d.day, style)
  }

  /** The month group reads every spelling of a month followed by a hyphen. */
  lemma MonthTokenOfText(m: nat, padded: bool, rest: string)
    requires 1 <= m <= 12 && |rest| >= 1 && rest[0] == '-'
    ensures MonthToken(MonthText(m, padded) + rest) == Some((m, |MonthText(m, padded)|))
  {
    PadTwo(m);
    if m <= 9 {
      PadOne(m);
    }
  }

  /** The day group reads every spelling of a day. */
  lemma DayTokenOfText(d: nat, style: DayStyle)
    requires 1 <= d <= 31
    ensures DayToken(DayText(d, style)) == Some((d, |DayText(d, style)|))
  {
    PadTwo(d);
    if d <= 9 {
      PadOne(d);
    }
  }

  /** What the month group matched is one of the month's spellings. */
  lemma MonthTokenSpelled(t: string) returns (padded: bool)
    requires MonthToken(t).Some?
    ensures MonthToken(t).value.1 <= |t|
    ensures t[..MonthToken(t).value.1] == MonthText(MonthToken(t).value.0, padded)
  {
    var (m, l) := MonthToken(t).value;
    PadTwo(m);
    if m <= 9 {
      PadOne(m);
    }
    padded := l == 2;
  }

  /** What the day group matched is one of the day's spellings. */
  lemma DayTokenSpelled(t: string) returns (style: DayStyle)
    requires DayToken(t).Some?
    ensures DayToken(t).value.1 <= |t|
    ensures t[..DayToken(t).value.1] == DayText(DayToken(t).value.0, style)
  {
    var (d, l) := DayToken(t).value;
    PadTwo(d);
    if d <= 9 {
      PadOne(d);
    }
    style := if l == 1 then Bare else if t[0] == ' ' then SpacePadded else ZeroPadded;
  }

  /** Whatever strptime accepts spells the date it yields. */
  lemma AcceptedIsSpelled(s: string)
    requires ParseFormDate(s).Success?
    ensures SpellsDate(s, ParseFormDate(s).value)
  {
    var d := ParseFormDate(s).value;
    var (month, ml) := MonthToken(s[5..]).value;
    var j := 5 + ml;
    var (day, dl) := DayToken(s[j + 1..]).value;
    var padded := MonthTokenSpelled(s[5..]);
    var style := DayTokenSpelled(s[j + 1..]);
    ValuePad(s[..4]);
    assert s[5..][..ml] == s[5..j];
    assert s[j + 1..][..dl] == s[j + 1..];
    assert s == s[..4] + "-" + s[5..j] + "-" + s[j + 1..];
    assert s == Pad(d.year, 4) + "-" + MonthText(d.month, padded) + "-" + DayText(d.day, style);
  }

  /** Every spelling of a date is accepted and read as that date. */
  lemma SpelledIsAccepted(d: Date, padded: bool, style: DayStyle)
    requires Valid(d) && 1 <= d.year <= 9999
    ensures ParseFormDate(Pad(d.year, 4) + "-" + MonthText(d.month, padded) + "-" + DayText(d.day, style)) == Success(d)
  {
    var mt, dt := MonthText(d.month, padded), DayText(d.day, style);
    var s := Pad(d.year, 4) + "-" + mt + "-" + dt;
    var j := 5 + |mt|;
    assert s[..4] == Pad(d.year, 4);
    PadValue(d.year, 4);
    assert s[5..] == mt + ("-" + dt);
    MonthTokenOfText(d.month, padded, "-" + dt);
    assert s[j] == '-';
    assert s[j + 1..] == dt;
    DayTokenOfText(d.day, style);
  }

  /** strptime accepts exactly the spellings of real dates of years 1 to
      9999, and reads each as the date it spells. */
  lemma ParseFormDateSpelling(s: string, d: Date)
    ensures ParseFormDate(s) == Success(d) <==> SpellsDate(s, d)
  {
    if ParseFormDate(s) == Success(d) {
      AcceptedIsSpelled(s);
    }
    if SpellsDate(s, d) {
      var padded: bool, style: DayStyle :|
        s == Pad(d.year, 4) + "-" + MonthText(d.month, padded) + "-" + DayText(d.day, style);
      SpelledIsAccepted(d, padded, style);
    }
  }

  /** Dates of years 1 to 9999 lie well inside the range a JavaScript Date can
      hold. */
  lemma FourDigitYearsInRange(d: Date)
    requires Valid(d) && 1 <= d.year <= 9999
    ensures IsoDate.InTimeRange(d)
  {
    DayOfYearBound(d);
    if d.year <= 1970 {
      YearsApart(d.year, 1970);
    } else {
      YearsApart(1970, d.year);
    }
  }

  /** A zero-padded two-digit month is read whole by the month group. */
  lemma MonthTokenPadded(m: int, rest: string)
    requires 1 <= m <= 12
    ensures MonthToken(Pad(m, 2) + rest) == Some((m, 2))
  {
    PadTwo(m);
  }

  /** A zero-padded two-digit day is read whole by the day group. */
  lemma DayTokenPadded(dd: int)
    requires 1 <= dd <= 31
    ensures DayToken(Pad(dd, 2)) == Some((dd, 2))
  {
    PadTwo(dd);
  }

  /** Every date of years 1 to 9999 in the `YYYY-MM-DD` form a browser date
      input submits (the form `toISOString` writes) parses to itself. */
  lemma ParsesIsoForm(d: Date)
    requires Valid(d) && 1 <= d.year <= 9999
    ensures IsoDate.InTimeRange(d)
    ensures ParseFormDate(IsoDate.FormatIsoDate(d)) == Success(d)
  {
    FourDigitYearsInRange(d);
    var s := IsoDate.FormatIsoDate(d);
    var mm, dd := Pad(d.month, 2), Pad(d.day, 2);
    assert s == Pad(d.year, 4) + "-" + mm + "-" + dd;
    assert s[..4] == Pad(d.year, 4);
    PadValue(d.year, 4);
    assert s[5..] == mm + ("-" + dd);
    MonthTokenPadded(d.month, "-" + dd);
    assert s[8..] == dd;
    DayTokenPadded(d.day);
  }

  /** Every string strptime accepts that is in `YYYY-MM-DD` shape is read the
      same way by the browser: client and server agree on such dates. */
  lemma AgreesWithIso(s: string)
    requires IsoDate.IsCanonicalShape(s) && ParseFormDate(s).Success?
    ensures IsoDate.ParseIsoDate(s) == Success(ParseFormDate(s).value)
  {
    var d := ParseFormDate(s).value;
    var month := MonthToken(s[5..]).value;
    assert month.1 == 2 by {
      assert s[5..][1] == s[6];
    }
    assert month.0 == 10 * DigitAt(s, 5) + DigitAt(s, 6);
    var day := DayToken(s[8..]).value;
    assert day.1 == 2;
    assert day.0 == 10 * DigitAt(s, 8) + DigitAt(s, 9);
    PadTwo(d.month);
    PadTwo(d.day);
    ValuePad(s[..4]);
    ParsesIsoForm(d);
    IsoDate.ParseFormat(d);
    var t := IsoDate.FormatIsoDate(d);
    assert d.month == month.0 && d.day == day.0;
    assert s[..4] == Pad(d.year, 4);
    assert s[5..7] == Pad(d.month, 2);
    assert s[8..] == Pad(d.day, 2);
    assert t == Pad(d.year, 4) + "-" + Pad(d.month, 2) + "-" + Pad(d.day, 2);
    assert s == s[..4] + "-" + s[5..7] + "-" + s[8..];
  }

  /** Single-digit months and days need no leading zero. */
  lemma AcceptsUnpadded(d: Date)
    requires Valid(d) && 1 <= d.year <= 9999 && d.month <= 9 && d.day <= 9
    ensures ParseFormDate(Pad(d.year, 4) + "-" + Pad(d.month, 1) + "-" + Pad(d.day, 1)) == Success(d)
  {
    var s := Pad(d.year, 4) + "-" + Pad(d.month, 1) + "-" + Pad(d.day, 1);
    assert s[..4] == Pad(d.year, 4);
    PadValue(d.year, 4);
    assert Pad(d.month, 1) == [('0' as int + d.month) as char];
    assert Pad(d.day, 1) == [('0' as int + d.day) as char];
    assert s[5..] == Pad(d.month, 1) + "-" + Pad(d.day, 1);
    assert s[7..] == Pad(d.day, 1);
  }

  /** A date field may hold a year of five or more digits. Neither parser
      reads it: strptime finds a digit where the hyphen belongs, and the
      date-only grammar has no unsigned five-digit year. */
  lemma RejectsLongYear(s: string)
    requires |s| >= 5 && AllDigits(s[..5])
    ensures ParseFormDate(s) == Failure(DoesNotMatchFormat)
    ensures IsoDate.ParseIsoDate(s) == Failure(IsoDate.InvalidTimeValue)
  {
    assert IsDigit(s[..5][4]);
    assert s[4..][0] == s[4];
  }

  /** A cleared date field submits the empty string, which neither parser
      reads. */
  lemma RejectsEmptyField()
    ensures ParseFormDate("") == Failure(DoesNotMatchFormat)
    ensures IsoDate.ParseIsoDate("") == Failure(IsoDate.InvalidTimeValue)
  {
  }

  /** The 29th of February of a common year is refused after the pattern
      has matched. */
  lemma RejectsMissingLeapDay(y: int)
    requires 1 <= y <= 9999 && !IsLeapYear(y)
    ensures ParseFormDate(Pad(y, 4) + "-02-29") == Failure(DayOutOfRange)
  {
    var s := Pad(y, 4) + "-02-29";
    assert s[..4] == Pad(y, 4);
    PadValue(y, 4);
    assert s[5..] == "02-29";
    assert s[8..] == "29";
  }
}

=== FILE: iso_date.dfy ===
/** The date-only forms of the ECMAScript Date Time String Format (section
    21.4.1.32 of ECMA-262), as read by `new Date(string)` and written by
    `toISOString()` cut at the `T`. Date-only strings denote midnight UTC, so a
    parsed string is a civil date; the time value must stay within the range
    TimeClip allows, otherwise the Date is invalid. */
module IsoDate {

  import opened Wrappers
  import opened Text
  import opened CivilDate

  /** The largest distance from the epoch, in days, that a Date can hold:
      8.64e15 milliseconds (section 21.4.1.1 of ECMA-262). */
  const MaxTimeDays: int := 100_000_000

  predicate InTimeRange(d: Date)
    requires 1 <= d.month <= 12
  {
    -MaxTimeDays <= ToDays(d) <= MaxTimeDays
  }

  /** A Date whose time value is NaN ("Invalid Date"); `toISOString` throws a
      RangeError for it. */
  datatype DateError = InvalidTimeValue

  /** The year field: four digits, or a sign and six digits (the expanded
      form, where minus zero is not allowed). Also returns how many characters
      it used. */
  function ParseYearField(s: string): (r: Option<(int, nat)>)
    ensures r.Some? ==> r.value.1 <= |s|
  {
    if |s| >= 4 && AllDigits(s[..4]) then Some((DigitsValue(s[..4]), 4))
    else if |s| >= 7 && (s[0] == '+' || s[0] == '-') && AllDigits(s[1..7]) && s[..7] != "-000000" then
      var magnitude: int := DigitsValue(s[1..7]);
      Some((if s[0] == '-' then -magnitude else magnitude, 7))
    else None
  }

  /** What follows the year: nothing, `-MM`, or `-MM-DD`; missing fields are 1. */
  function ParseMonthDay(rest: string): (r: Option<(int, int)>) {
    if rest == [] then Some((1, 1))
    else if |rest| == 3 && rest[0] == '-' && AllDigits(rest[1..]) then
      Some((DigitsValue(rest[1..]), 1))
    else if |rest| == 6 && rest[0] == '-' && AllDigits(rest[1..3]) && rest[3] == '-' && AllDigits(rest[4..]) then
      Some((DigitsValue(rest[1..3]), DigitsValue(rest[4..])))
    else None
  }

  /** `new Date(s)` for a date-only string. Out-of-range fields and anything
      that is not one of the date-only forms give an invalid Date. */
  function ParseIsoDate(s: string): (r: Result<Date, DateError>)
    ensures r.Success? ==> Valid(r.value) && InTimeRange(r.value)
  {
    match ParseYearField(s)
    case None => Failure(InvalidTimeValue)
    case Some((y, k)) =>
      match ParseMonthDay(s[k..])
      case None => Failure(InvalidTimeValue)
      case Some((m, dd)) =>
        var d := Date(y, m, dd);
        if Valid(d) && InTimeRange(d) then Success(d) else Failure(InvalidTimeValue)
  }

  /** Every Date in the representable range has a year of at most six digits. */
  lemma TimeRangeYears(d: Date)
    requires Valid(d) && InTimeRange(d)
    ensures -999_999 <= d.year <= 999_999
  {
    DayOfYearBound(d);
    if d.year > 999_999 {
      YearsApart(1970, d.year);
    } else if d.year < -999_999 {
      YearsApart(d.year, 1970);
    }
  }

  function YearField(y: int): (s: string)
    requires -999_999 <= y <= 999_999
  {
    if 0 <= y <= 9999 then Pad(y, 4)
    else if y > 9999 then "+" + Pad(y, 6)
    else "-" + Pad(-y, 6)
  }

  /** `date.toISOString().split('T')[0]`: the year (four digits, or sign and
      six digits outside 0000 to 9999), month and day, joined by hyphens. */
  function FormatIsoDate(d: Date): (s: string)
    requires Valid(d) && InTimeRange(d)
    ensures |s| == (if 0 <= d.year <= 9999 then 10 else 13)
    ensures s[|s| - 6] == '-' && s[|s| - 3] == '-'
    ensures AllDigits(s[|s| - 5..|s| - 3]) && DigitsValue(s[|s| - 5..|s| - 3]) == d.month
    ensures AllDigits(s[|s| - 2..]) && DigitsValue(s[|s| - 2..]) == d.day
  {
    TimeRangeYears(d);
    MonthDayTail(YearField(d.year), d.month, d.day);
    YearField(d.year) + "-" + Pad(d.month, 2) + "-" + Pad(d.day, 2)
  }

  /** The last six characters of a formatted date are `-MM-DD`, which read
      back as the month and the day. */
  lemma MonthDayTail(y: string, m: nat, dd: nat)
    requires m < 100 && dd < 100
    ensures var s := y + "-" + Pad(m, 2) + "-" + Pad(dd, 2);
      && |s| == |y| + 6
      && s[|s| - 6] == '-' && s[|s| - 3] == '-'
      && s[|s| - 5..|s| - 3] == Pad(m, 2) && DigitsValue(Pad(m, 2)) == m
      && s[|s| - 2..] == Pad(dd, 2) && DigitsValue(Pad(dd, 2)) == dd
  {
    PadValue(m, 2);
    PadValue(dd, 2);
    var s := y + "-" + Pad(m, 2) + "-" + Pad(dd, 2);
    assert s[|s| - 5..|s| - 3] == Pad(m, 2);
    assert s[|s| - 2..] == Pad(dd, 2);
  }

  /** The `YYYY-MM-DD` shape: four digits, hyphen, two digits, hyphen, two
      digits. */
  predicate IsCanonicalShape(s: string) {
    && |s| == 10
    && AllDigits(s[..4]) && s[4] == '-'
    && AllDigits(s[5..7]) && s[7] == '-'
    && AllDigits(s[8..])
  }

  /** The formatted string has the `YYYY-MM-DD` shape exactly when the year
      lies in 0000 to 9999. */
  lemma FormatShape(d: Date)
    requires Valid(d) && InTimeRange(d)
    ensures IsCanonicalShape(FormatIsoDate(d)) <==> 0 <= d.year <= 9999
  {
    TimeRangeYears(d);
    var s := FormatIsoDate(d);
    if 0 <= d.year <= 9999 {
      assert s[..4] == Pad(d.year, 4);
      assert s[5..7] == Pad(d.month, 2);
      assert s[8..] == Pad(d.day, 2);
    } else {
      assert |s| == 13;
    }
  }

  /** The year field of a formatted date reads back as its year. */
  lemma YearFieldReadsBack(y: int, rest: string)
    requires -999_999 <= y <= 999_999
    ensures ParseYearField(YearField(y) + rest) == Some((y, |YearField(y)|))
  {
    var f := YearField(y);
    var s := f + rest;
    if 0 <= y <= 9999 {
      PadValue(y, 4);
      assert s[..4] == f;
    } else {
      var mag := if y > 9999 then y else -y;
      PadValue(mag, 6);
      assert s[1..7] == Pad(mag, 6);
      assert !IsDigit(s[0]);
      assert s[..7] == f;
      if y < 0 {
        assert f != "-000000" by {
          PadValue(0, 6);
          assert Pad(0, 6) == "000000";
          assert f[1..] == Pad(mag, 6);
        }
      }
    }
  }

  /** The month and day fields of a formatted date read back as its month and day. */
  lemma MonthDayReadsBack(m: nat, dd: nat)
    requires m < 100 && dd < 100
    ensures ParseMonthDay("-" + Pad(m, 2) + "-" + Pad(dd, 2)) == Some((m, dd))
  {
    var mm, ds := Pad(m, 2), Pad(dd, 2);
    var rest := "-" + mm + "-" + ds;
    assert |rest| == 6 && rest[0] == '-' && rest[3] == '-';
    assert rest[1..3] == mm;
    assert rest[4..] == ds;
    PadValue(m, 2);
    PadValue(dd, 2);
  }

  /** Parsing what was formatted gives the date back. */
  lemma ParseFormat(d: Date)
    requires Valid(d) && InTimeRange(d)
    ensures ParseIsoDate(FormatIsoDate(d)) == Success(d)
  {
    TimeRangeYears(d);
    var rest := "-" + Pad(d.month, 2) + "-" + Pad(d.day, 2);
    var s := FormatIsoDate(d);
    assert s == YearField(d.year) + rest;
    YearFieldReadsBack(d.year, rest);
    assert s[|YearField(d.year)|..] == rest;
    MonthDayReadsBack(d.month, d.day);
  }

  /** A `YYYY-MM-DD` string that parses is exactly the formatting of its
      date: the format is canonical. */
  lemma FormatParse(s: string)
    requires IsCanonicalShape(s) && ParseIsoDate(s).Success?
    ensures FormatIsoDate(ParseIsoDate(s).value) == s
  {
    var d := ParseIsoDate(s).value;
    ValuePad(s[..4]);
    ValuePad(s[5..7]);
    ValuePad(s[8..]);
    var rest := s[4..];
    assert rest[1..3] == s[5..7];
    assert rest[4..] == s[8..];
    assert s == s[..4] + "-" + s[5..7] + "-" + s[8..];
  }
}

=== FILE: next_collection.dfy ===
/** `calculateNextCollection(frequency, currentDate)` of static/js/main.js: the
    preview of the collection after the one entered, shown when the frequency
    selector changes. The date string is read as a Date, moved forward by a
    week or two for the two known frequencies, and written back as a
    `YYYY-MM-DD` string. */
module NextCollection {

  import opened Wrappers
  import opened CivilDate
  import opened IsoDate

  /** How far a frequency moves the date: 7 days for "weekly", 14 for
      "biweekly", none for any other string (the comparison is exact). */
  function OffsetDays(frequency: string): (r: int)
    ensures r == 7 <==> frequency == "weekly"
    ensures r == 14 <==> frequency == "biweekly"
    ensures r == 0 <==> frequency != "weekly" && frequency != "biweekly"
  {
    if frequency == "weekly" then 7
    else if frequency == "biweekly" then 14
    else 0
  }

  /** The preview date, or the RangeError `toISOString` throws when the input
      is not a date or the moved date leaves the representable range. */
  function CalculateNextCollection(frequency: string, currentDate: string): (r: Result<string, DateError>)
    ensures r.Success? <==>
      && ParseIsoDate(currentDate).Success?
      && InTimeRange(AddDays(ParseIsoDate(currentDate).value, OffsetDays(frequency)))
    ensures r.Success? ==>
      ParseIsoDate(r.value) == Success(AddDays(ParseIsoDate(currentDate).value, OffsetDays(frequency)))
  {
    match ParseIsoDate(currentDate)
    case Failure(e) => Failure(e)
    case Success(d) =>
      var next := AddDays(d, OffsetDays(frequency));
      if InTimeRange(next) then
        ParseFormat(next);
        Success(FormatIsoDate(next))
      else Failure(InvalidTimeValue)
  }

  /** "weekly" gives the date whose day number is seven more: the civil date
      exactly one week later, across month and year ends. */
  lemma WeeklyIsSevenDaysLater(currentDate: string)
    requires CalculateNextCollection("weekly", currentDate).Success?
    ensures var d := ParseIsoDate(currentDate).value;
      var next := ParseIsoDate(CalculateNextCollection("weekly", currentDate).value).value;
      && ToDays(next) == ToDays(d) + 7
      && next == (if d.day + 7 <= DaysInMonth(d.year, d.month) then Date(d.year, d.month, d.day + 7)
                  else if d.month < 12 then Date(d.year, d.month + 1, d.day + 7 - DaysInMonth(d.year, d.month))
                  else Date(d.year + 1, 1, d.day + 7 - 31))
  {
    AddDaysRollover(ParseIsoDate(currentDate).value, 7);
  }

  /** "biweekly" gives exactly fourteen days later, which is what applying
      "weekly" twice gives. */
  lemma BiweeklyIsTwoWeeks(currentDate: string)
    requires CalculateNextCollection("biweekly", currentDate).Success?
    ensures var d := ParseIsoDate(currentDate).value;
      ToDays(ParseIsoDate(CalculateNextCollection("biweekly", currentDate).value).value) == ToDays(d) + 14
    ensures var once := CalculateNextCollection("weekly", currentDate);
      && once.Success?
      && CalculateNextCollection("weekly", once.value) == CalculateNextCollection("biweekly", currentDate)
  {
    var d := ParseIsoDate(currentDate).value;
    var d7 := AddDays(d, 7);
    var d14 := AddDays(d, 14);
    assert InTimeRange(d7);
    var once := CalculateNextCollection("weekly", currentDate);
    assert ParseIsoDate(once.value) == Success(d7);
    AddDaysCompose(d, 7, 7);
  }

  /** A cleared date field gives no preview: the empty string is an invalid
      Date, whatever the frequency. */
  lemma EmptyDateHasNoPreview(frequency: string)
    ensures CalculateNextCollection(frequency, "") == Failure(InvalidTimeValue)
  {
  }

  /** Any other frequency leaves the date where it was; a `YYYY-MM-DD` input
      comes back unchanged. */
  lemma OtherFrequencyKeepsDate(frequency: string, currentDate: string)
    requires frequency != "weekly" && frequency != "biweekly"
    requires ParseIsoDate(currentDate).Success?
    ensures CalculateNextCollection(frequency, currentDate) == Success(FormatIsoDate(ParseIsoDate(currentDate).value))
    ensures IsCanonicalShape(currentDate) ==> CalculateNextCollection(frequency, currentDate) == Success(currentDate)
  {
    AddDaysZero(ParseIsoDate(currentDate).value);
    if IsCanonicalShape(currentDate) {
      FormatParse(currentDate);
    }
  }

  /** The preview is a `YYYY-MM-DD` string exactly when the next collection
      falls in a four-digit year; from 9999-12-25 onwards "weekly" reaches year
      10000, which `toISOString` writes in the expanded `+YYYYYY` form. */
  lemma PreviewShape(frequency: string, currentDate: string)
    requires CalculateNextCollection(frequency, currentDate).Success?
    ensures var next := AddDays(ParseIsoDate(currentDate).value, OffsetDays(frequency));
      IsCanonicalShape(CalculateNextCollection(frequency, currentDate).value) <==> 0 <= next.year <= 9999
  {
    FormatShape(AddDays(ParseIsoDate(currentDate).value, OffsetDays(frequency)));
  }
}

=== FILE: phone.dfy ===
/** The client-side phone-number check of static/js/main.js (validatePhoneNumber):
    the separators `-`, white space, `(` and `)` are deleted, and what remains is
    matched against the regular expression `^\+?1?\d{10,12}$`. */
module PhoneValidation {

  import opened Text

  /** `\s` of an ECMAScript regular expression: the WhiteSpace and
      LineTerminator code points. */
  predicate IsJsWhiteSpace(c: char) {
    || c == '\t' || c == '\n' || c == '\U{000B}' || c == '\U{000C}' || c == '\r'
    || c == ' ' || c == '\U{00A0}' || c == '\U{1680}'
    || ('\U{2000}' <= c <= '\U{200A}')
    || c == '\U{2028}' || c == '\U{2029}' || c == '\U{202F}' || c == '\U{205F}'
    || c == '\U{3000}' || c == '\U{FEFF}'
  }

  /** The character class `[-\s()]` that the replace call deletes. */
  predicate IsSeparator(c: char) {
    c == '-' || c == '(' || c == ')' || IsJsWhiteSpace(c)
  }

  /** The separator class is disjoint from what the pattern matches: no
      separator is a digit or a `+`, so deleting separators never removes a
      character the pattern needs. Every ECMAScript white-space character is
      a separator, and so are the three punctuation marks. */
  lemma SeparatorsAreNotPatternCharacters(c: char)
    ensures IsSeparator(c) ==> !IsDigit(c) && c != '+'
    ensures IsJsWhiteSpace(c) || c == '-' || c == '(' || c == ')' ==> IsSeparator(c)
    ensures IsJsWhiteSpace(c) ==> c != '-' && c != '(' && c != ')'
  {
  }

  /** `phone.replace(/[-\s()]/g, '')`: every separator is removed and every
      other character is kept, in order. */
  function Clean(s: string): (r: string)
    ensures |r| <= |s|
    ensures forall i :: 0 <= i < |r| ==> !IsSeparator(r[i])
    ensures (forall i :: 0 <= i < |s| ==> !IsSeparator(s[i])) ==> r == s
  {
    if s == [] then []
    else if IsSeparator(s[0]) then Clean(s[1..])
    else [s[0]] + Clean(s[1..])
  }

  /** Deleting separators commutes with concatenation: each character is
      judged on its own. */
  lemma {:induction false} CleanAppend(a: string, b: string)
    ensures Clean(a + b) == Clean(a) + Clean(b)
  {
    if a == [] {
      assert a + b == b;
    } else {
      assert (a + b)[0] == a[0];
      assert (a + b)[1..] == a[1..] + b;
      CleanAppend(a[1..], b);
    }
  }

  /** The language of `^\+?1?\d{10,12}$`: the cleaned string is an optional `+`,
      then an optional `1`, then between ten and twelve digits and nothing
      else. `plus` and `one` say which optional parts the match uses. */
  predicate MatchesWith(t: string, plus: bool, one: bool) {
    var k := (if plus then 1 else 0) + (if one then 1 else 0);
    && k <= |t|
    && (plus ==> t[0] == '+')
    && (one ==> t[k - 1] == '1')
    && AllDigits(t[k..])
    && 10 <= |t| - k <= 12
  }

  ghost predicate MatchesPhonePattern(t: string) {
    exists plus: bool, one: bool :: MatchesWith(t, plus, one)
  }

  /** A direct recogniser for the pattern: drop a leading `+`; the rest must
      be digits, ten to twelve of them, or thirteen when the first is the
      optional `1`. */
  function Recognise(t: string): (r: bool)
    ensures r ==> 10 <= |t| <= 14
    ensures r ==> forall i :: 0 <= i < |t| && !(i == 0 && t[i] == '+') ==> IsDigit(t[i])
  {
    var body := if |t| > 0 && t[0] == '+' then t[1..] else t;
    assert forall i :: 0 <= i < |t| && !(i == 0 && t[i] == '+') ==> t[i] == body[if body == t then i else i - 1];
    AllDigits(body) && (10 <= |body| <= 12 || (|body| == 13 && body[0] == '1'))
  }

  /** The recogniser decides exactly the language of the regular expression. */
  lemma RecogniseCorrect(t: string)
    ensures Recognise(t) <==> MatchesPhonePattern(t)
  {
    var plus := |t| > 0 && t[0] == '+';
    var body := if plus then t[1..] else t;
    if Recognise(t) {
      if 10 <= |body| <= 12 {
        assert t[(if plus then 1 else 0)..] == body;
        assert MatchesWith(t, plus, false);
      } else {
        var k := if plus then 2 else 1;
        assert t[k - 1] == body[0];
        assert t[k..] == body[1..];
        assert MatchesWith(t, plus, true);
      }
    } else {
      forall p: bool, o: bool | MatchesWith(t, p, o)
        ensures false
      {
        MatchImpliesRecognise(t, p, o);
      }
    }
  }

  lemma MatchImpliesRecognise(t: string, p: bool, o: bool)
    requires MatchesWith(t, p, o)
    ensures Recognise(t)
  {
    var k := (if p then 1 else 0) + (if o then 1 else 0);
    var plus := |t| > 0 && t[0] == '+';
    var body := if plus then t[1..] else t;
    if p {
      assert plus && body == t[1..];
    } else {
      if o {
        assert t[0] == '1';
      } else {
        assert t[k..] == t;
        assert IsDigit(t[0]);
      }
      assert !plus && body == t;
    }
    assert body[(if o then 1 else 0)..] == t[k..];
    if o {
      assert body[0] == '1';
    }
  }

  /** `validatePhoneNumber(phone)`: the verdict is the regular expression's
      verdict on the cleaned string. */
  function ValidatePhoneNumber(phone: string): (ok: bool)
    ensures ok <==> MatchesPhonePattern(Clean(phone))
  {
    RecogniseCorrect(Clean(phone));
    Recognise(Clean(phone))
  }

  /** Inserting a separator anywhere never changes the verdict. */
  lemma SeparatorInsertionInvariant(a: string, b: string, c: char)
    requires IsSeparator(c)
    ensures Clean(a + [c] + b) == Clean(a + b)
    ensures ValidatePhoneNumber(a + [c] + b) == ValidatePhoneNumber(a + b)
  {
    CleanAppend(a + [c], b);
    CleanAppend(a, [c]);
    CleanAppend(a, b);
  }

  /** Every accepted number cleans to between ten and fourteen characters. */
  lemma AcceptedLength(phone: string)
    requires ValidatePhoneNumber(phone)
    ensures 10 <= |Clean(phone)| <= 14
  {
    var t := Clean(phone);
    var plus, one :| MatchesWith(t, plus, one);
  }

  /** A cleaned character that is not a digit rejects the number, unless it is
      a `+` in first position; in particular a `+` anywhere else rejects it. */
  lemma RejectsStrayCharacter(phone: string, i: int)
    requires 0 <= i < |Clean(phone)|
    requires !IsDigit(Clean(phone)[i])
    requires !(i == 0 && Clean(phone)[i] == '+')
    ensures !ValidatePhoneNumber(phone)
  {
    var t := Clean(phone);
    var plus := |t| > 0 && t[0] == '+';
    var body := if plus then t[1..] else t;
    if plus {
      assert body[i - 1] == t[i];
    } else {
      assert body[i] == t[i];
    }
    assert !AllDigits(body);
  }
}

=== FILE: schedules.dfy ===
/** The schedule table and the `/schedule/update` handler of app.py
    (update_schedule): the logged-in user submits a bin type, a frequency and
    a next-collection date, and the row for (user, bin type) is updated in
    place or created. The table is modelled as a map keyed by (user id, bin
    type), so "at most one schedule per key" is the shape of the state, and
    WellKeyed says that each row is filed under its own user and bin type. */
module ScheduleStore {

  import opened Wrappers
  import opened CivilDate
  import opened FormDate

  /** One bin_schedule row; next_collection is midnight of a civil date. */
  datatype Schedule = Schedule(userId: int, binType: string, frequency: string, nextCollection: Date)

  type Key = (int, string)

  type Store = map<Key, Schedule>

  predicate WellKeyed(s: Store) {
    forall k :: k in s ==> s[k].userId == k.0 && s[k].binType == k.1
  }

  /** Lines 83 to 98 after a successful commit: an existing row keeps its
      identity and gets the new frequency and date; otherwise a new row is
      added. Every other row is left alone. The `filter_by(user_id=...,
      bin_type=...).first()` query is membership of the key. */
  function Upsert(s: Store, userId: int, binType: string, frequency: string, date: Date): (r: Store)
    ensures (userId, binType) in r
    ensures r[(userId, binType)].frequency == frequency && r[(userId, binType)].nextCollection == date
    ensures (userId, binType) in s ==>
      && r[(userId, binType)].userId == s[(userId, binType)].userId
      && r[(userId, binType)].binType == s[(userId, binType)].binType
      && |r| == |s|
    ensures (userId, binType) !in s ==>
      r[(userId, binType)] == Schedule(userId, binType, frequency, date) && |r| == |s| + 1
    ensures r.Keys == s.Keys + {(userId, binType)}
    ensures forall k :: k in s && k != (userId, binType) ==> r[k] == s[k]
  {
    var key := (userId, binType);
    if key in s then s[key := s[key].(frequency := frequency, nextCollection := date)]
    else s[key := Schedule(userId, binType, frequency, date)]
  }

  /** Why a submission fails. The date is parsed first; a field missing from
      the form leaves a NULL in a NOT NULL column, and the commit is refused. */
  datatype UpdateError =
    | MissingDate                       // strptime(None, ...) raises TypeError
    | MalformedDate(cause: FormDateError)
    | MissingBinType                    // bin_type NULL: the insert is refused
    | MissingFrequency                  // frequency NULL: the commit is refused

  /** The whole handler. On failure nothing is committed, so the store stays
      as it was; the result carries the store after the request. */
  function UpdateSchedule(
    s: Store, currentUser: int,
    binType: Option<string>, frequency: Option<string>, nextCollection: Option<string>
  ): (r: Result<Store, UpdateError>)
    ensures r.Success? <==>
      && nextCollection.Some? && ParseFormDate(nextCollection.value).Success?
      && binType.Some? && frequency.Some?
    ensures nextCollection.None? ==> r == Failure(MissingDate)
    ensures nextCollection.Some? && ParseFormDate(nextCollection.value).Failure? ==>
      r == Failure(MalformedDate(ParseFormDate(nextCollection.value).error))
    ensures r.Success? ==>
      r.value == Upsert(s, currentUser, binType.value, frequency.value, ParseFormDate(nextCollection.value).value)
  {
    match nextCollection
    case None => Failure(MissingDate)
    case Some(text) =>
      match ParseFormDate(text)
      case Failure(cause) => Failure(MalformedDate(cause))
      case Success(date) =>
        match (binType, frequency)
        case (None, _) => Failure(MissingBinType)
        case (_, None) => Failure(MissingFrequency)
        case (Some(b), Some(f)) => Success(Upsert(s, currentUser, b, f, date))
  }

  /** The upsert keeps every row filed under its own user and bin type, and
      afterwards exactly one row exists for the submitted key, with the
      submitted values. */
  lemma UpsertWellKeyed(s: Store, userId: int, binType: string, frequency: string, date: Date)
    requires WellKeyed(s)
    ensures WellKeyed(Upsert(s, userId, binType, frequency, date))
    ensures Upsert(s, userId, binType, frequency, date)[(userId, binType)] == Schedule(userId, binType, frequency, date)
  {
  }

  /** Submitting the same form twice has the effect of submitting it once. */
  lemma UpsertIdempotent(s: Store, userId: int, binType: string, frequency: string, date: Date)
    ensures var once := Upsert(s, userId, binType, frequency, date);
      Upsert(once, userId, binType, frequency, date) == once
  {
  }

  /** For the same key the later submission wins outright. */
  lemma UpsertLastWins(s: Store, userId: int, binType: string, f1: string, d1: Date, f2: string, d2: Date)
    ensures Upsert(Upsert(s, userId, binType, f1, d1), userId, binType, f2, d2)
         == Upsert(s, userId, binType, f2, d2)
  {
  }

  /** Submissions for different keys do not interfere: their order does not
      matter. */
  lemma UpsertCommutes(s: Store, u1: int, b1: string, f1: string, d1: Date,
                       u2: int, b2: string, f2: string, d2: Date)
    requires (u1, b1) != (u2, b2)
    ensures Upsert(Upsert(s, u1, b1, f1, d1), u2, b2, f2, d2)
         == Upsert(Upsert(s, u2, b2, f2, d2), u1, b1, f1, d1)
  {
  }
}

=== FILE: text.dfy ===
/** Decimal digits and zero-padded decimal numerals, shared by the phone check
    and the date formats. */
module Text {

  /** An ASCII decimal digit (what `\d` matches in a regular expression
      without the Unicode flag). */
  predicate IsDigit(c: char) {
    '0' <= c <= '9'
  }

  predicate AllDigits(s: string) {
    forall i :: 0 <= i < |s| ==> IsDigit(s[i])
  }

  function Pow10(n: nat): (p: nat)
    ensures p >= 1
  {
    if n == 0 then 1 else 10 * Pow10(n - 1)
  }

  /** The number a string of decimal digits denotes. */
  function DigitsValue(s: string): (n: nat)
    requires AllDigits(s)
    ensures n < Pow10(|s|)
  {
    if s == [] then 0
    else DigitsValue(s[..|s| - 1]) * 10 + (s[|s| - 1] as int - '0' as int)
  }

  /** n written in decimal with exactly `width` digits, leading zeros added. */
  function Pad(n: nat, width: nat): (s: string)
    requires n < Pow10(width)
    ensures |s| == width
    ensures AllDigits(s)
  {
    if width == 0 then []
    else Pad(n / 10, width - 1) + [('0' as int + n % 10) as char]
  }

  /** Reading back a padded numeral gives the number. */
  lemma {:induction false} PadValue(n: nat, width: nat)
    requires n < Pow10(width)
    ensures DigitsValue(Pad(n, width)) == n
  {
    if width > 0 {
      var s := Pad(n, width);
      assert s[..|s| - 1] == Pad(n / 10, width - 1);
      PadValue(n / 10, width - 1);
    }
  }

  /** Padding a string's value to its own length gives the string back: a
      numeral is determined by its value and its width. */
  lemma {:induction false} ValuePad(s: string)
    requires AllDigits(s)
    ensures Pad(DigitsValue(s), |s|) == s
  {
    if s != [] {
      var init := s[..|s| - 1];
      var n := DigitsValue(s);
      assert n / 10 == DigitsValue(init);
      ValuePad(init);
      assert s == init + [s[|s| - 1]];
    }
  }

  /** A one-digit numeral is that digit. */
  lemma PadOne(n: nat)
    requires n < 10
    ensures Pad(n, 1) == [('0' as int + n) as char]
  {
  }

  /** A two-digit numeral spelled out: tens digit, then units digit. */
  lemma PadTwo(n: nat)
    requires n < 100
    ensures Pad(n, 2) == [('0' as int + n / 10) as char, ('0' as int + n % 10) as char]
  {
    assert Pad(n / 10, 1) == Pad(n / 100, 0) + [('0' as int + (n / 10) % 10) as char];
  }
}

=== FILE: users.dfy ===
/** The user table and the `/register` handler of app.py (register): a new
    account is created only for an email address that no account has yet.
    The table is the sequence of rows in insertion order. The id of a new row
    is chosen by the database (app.py sets none), so it is a parameter here;
    a database key source hands out an id no row has, though not necessarily
    the next integer. No code in the core deletes a user. */
module UserDirectory {

  import opened Wrappers

  /** One user row; the password hash and the relationship to schedules are
      not part of the model. */
  datatype User = User(id: int, email: string, phone: string, isAdmin: bool)

  type UserTable = seq<User>

  /** `unique=True` on the email column. */
  predicate EmailsUnique(t: UserTable) {
    forall i, j :: 0 <= i < j < |t| ==> t[i].email != t[j].email
  }

  /** `primary_key=True` on the id column. */
  predicate IdsDistinct(t: UserTable) {
    forall i, j :: 0 <= i < j < |t| ==> t[i].id != t[j].id
  }

  predicate WellFormed(t: UserTable) {
    EmailsUnique(t) && IdsDistinct(t)
  }

  predicate HasId(t: UserTable, id: int) {
    exists i :: 0 <= i < |t| && t[i].id == id
  }

  predicate HasEmail(t: UserTable, email: string) {
    exists i :: 0 <= i < |t| && t[i].email == email
  }

  /** `User.query.filter_by(email=email).first()`: the row with exactly this
      email, the only one since emails are unique. The query has no ORDER BY;
      the model scans in table order, which only matters for a table that
      breaks the unique constraint. */
  function FindByEmail(t: UserTable, email: string): (r: Option<User>)
    ensures r.Some? <==> HasEmail(t, email)
    ensures r.Some? ==> r.value.email == email && r.value in t
  {
    if t == [] then None
    else if t[0].email == email then Some(t[0])
    else
      assert forall i :: 1 <= i < |t| ==> t[i] == t[1..][i - 1];
      FindByEmail(t[1..], email)
  }

  /** Why a registration fails. A duplicate email is reported to the user;
      the others are request errors: set_password(None) raises, and a missing
      email or phone leaves a NULL in a NOT NULL column, refused at commit. */
  datatype RegisterError =
    | EmailAlreadyRegistered
    | MissingPassword
    | MissingEmail
    | MissingPhone

  /** The POST branch of register. `newId` is the id the database assigns
      at commit. Success carries the table after the commit; on failure the
      table is unchanged. */
  function Register(t: UserTable, newId: int, email: Option<string>, phone: Option<string>, password: Option<string>)
    : (r: Result<UserTable, RegisterError>)
    ensures r == Failure(EmailAlreadyRegistered) <==> email.Some? && HasEmail(t, email.value)
    ensures r.Success? <==>
      email.Some? && phone.Some? && password.Some? && !HasEmail(t, email.value)
    ensures r.Success? ==>
      && |r.value| == |t| + 1
      && r.value[..|t|] == t
      && r.value[|t|] == User(newId, email.value, phone.value, false)
  {
    if email.Some? && FindByEmail(t, email.value).Some? then Failure(EmailAlreadyRegistered)
    else if password.None? then Failure(MissingPassword)
    else if email.None? then Failure(MissingEmail)
    else if phone.None? then Failure(MissingPhone)
    else Success(t + [User(newId, email.value, phone.value, false)])
  }

  /** Registration keeps emails unique, and keeps ids distinct when the
      database hands out an id that no row has. */
  lemma RegisterPreservesWellFormed(t: UserTable, newId: int, email: Option<string>, phone: Option<string>, password: Option<string>)
    requires WellFormed(t)
    requires !HasId(t, newId)
    requires Register(t, newId, email, phone, password).Success?
    ensures WellFormed(Register(t, newId, email, phone, password).value)
  {
    var u := Register(t, newId, email, phone, password).value;
    forall i, j | 0 <= i < j < |u|
      ensures u[i].email != u[j].email && u[i].id != u[j].id
    {
      if j == |t| {
        assert u[i] == t[i];
        assert !HasEmail(t, email.value);
      } else {
        assert u[i] == t[i] && u[j] == t[j];
      }
    }
  }

  /** In a table with unique emails, looking an email up finds the one row
      that has it. */
  lemma FindByEmailUnique(t: UserTable, i: int)
    requires EmailsUnique(t) && 0 <= i < |t|
    ensures FindByEmail(t, t[i].email) == Some(t[i])
  {
  }

  /** After a registration the new account is the one found by its email, and
      registering the same email again is refused with nothing changed. */
  lemma RegisterThenFind(t: UserTable, newId: int, email: string, phone: string, password: string,
                         newId2: int, phone2: Option<string>, password2: Option<string>)
    requires Register(t, newId, Some(email), Some(phone), Some(password)).Success?
    ensures var u := Register(t, newId, Some(email), Some(phone), Some(password)).value;
      && FindByEmail(u, email) == Some(User(newId, email, phone, false))
      && Register(u, newId2, Some(email), phone2, password2) == Failure(EmailAlreadyRegistered)
  {
    var u := Register(t, newId, Some(email), Some(phone), Some(password)).value;
    FindAfterAppend(t, User(newId, email, phone, false));
  }

  /** Looking up the email of a row appended to a table that lacks it finds
      that row. */
  lemma {:induction false} FindAfterAppend(t: UserTable, x: User)
    requires !HasEmail(t, x.email)
    ensures FindByEmail(t + [x], x.email) == Some(x)
  {
    if t != [] {
      assert (t + [x])[1..] == t[1..] + [x];
      assert !HasEmail(t[1..], x.email) by {
        forall i | 0 <= i < |t[1..]| ensures t[1..][i].email != x.email {
          assert t[1..][i] == t[i + 1];
        }
      }
      FindAfterAppend(t[1..], x);
    }
  }
}

=== FILE: wrappers.dfy ===
/** Option and Result, the two failure-carrying datatypes the rest of the model uses
    for lookups that can miss and for operations that can raise. */
module Wrappers {

  /** A value that may be absent: a form field that was not submitted, a query
      that matched no row. */
  datatype Option<+T> = None | Some(value: T)

  /** Either the value an operation computes or the error it raises. */
  datatype Result<+R, +E> = Success(value: R) | Failure(error: E)
}
